=== FILE: README.md ===
# StudyBuddy AI — a Dafny model of the note session and its callable functions

StudyBuddy AI is a note-taking web client. Users sign in, keep short notes in a
live document store, attach a file to a note and ask a language model for a
summary. Nearly all of it is calls to hosted services. This project models the
parts with logic of their own:

- **The session controller of the client** (`Session`, `SessionProperties`):
  - the state is the user, the mirrored note list, the selected id, the edit
    buffer, the `busy`/`status` flags and the captcha flags;
  - there is one transition per event: an auth change, a snapshot, a list
    click, typing, and a start and a finish for each command and for captcha
    verification;
  - the React effects run as explicit follow-up steps. `Settle` reruns the
    buffer re-seed effect exactly when one of its dependencies
    `[selectedId, selected]` changed. `selected` is compared by object
    identity, named by the generation of the note list and a position in it.
- **Record shaping in the store layer** (`Firestore`): snapshot documents
  become items with `id`, and the payloads `createNote` and `updateNote` send.
  The store's merge and its server timestamps are included so that end-to-end
  properties can follow a request into the next server-acknowledged snapshot.
- **The two callable functions** (`CloudFunctions`):
  - `summarizeNote`: an ordered guard chain, then a summary with a fallback,
    a write-back, and a catch that maps every non-`HttpsError` to `internal`;
  - `verifyRecaptchaV2`: a two-guard token check.
- **JavaScript semantics the code relies on** (`JsValues`, `JsStrings`):
  - truthiness, `||` and property reads on plain objects;
  - `String.prototype.trim`, as in section 22.1.3.32 of ECMA-262 (2024 edition).
- **End-to-end compositions** (`Scenarios`): captcha verification, summarize,
  upload and create-then-select, each across client and server.

Collaborator outcomes are parameters:
- the auth listener's user;
- the documents of a snapshot;
- the outcome of each awaited call;
- the store read, the model completion text, the store write and the
  `siteverify` answer seen by the functions.

The program is modelled as written in two places where it behaves in a way
that may not have been intended:

- **The auto-select reads a stale value.** The snapshot callback tests the
  `selectedId` captured when the subscription was opened, not the current one.
  After signing in, that captured value is `null`. So every non-empty snapshot
  of that session moves the selection to the first (most recently updated)
  note (`SessionSnapshotsSelectFirst`).
- **Every snapshot discards unsaved edits.** Every snapshot builds new note
  objects. So while a note is selected, the re-seed effect fires on each
  snapshot and overwrites the edit buffer (`SnapshotReseedsBuffer`).

## Model

| member | source | states |
|---|---|---|
| `JsValues.OrEmpty` | studybuddy/src/App.jsx:62-63 | `x \|\| ""` keeps a truthy value and turns every falsy one into the empty string, so the result is never `null` or `undefined` |
| `JsStrings.Trim` | studybuddy/functions/index.js:59 | the trimmed text is an infix of the input, removes only white space on either side, and neither starts nor ends with white space |
| `JsStrings.TrimEmptyIffAllSpace` | studybuddy/functions/index.js:58-60 | a text trims to the empty string exactly when it consists of white space only (both directions) |
| `Firestore.ItemOf` | studybuddy/src/firestore.js:19 | an item has the document's data fields with their values plus `id`; the document id shows under `id` only when the data has no `id` field |
| `Firestore.ItemIdOverride` | studybuddy/src/firestore.js:19 | because the spread comes after `id`, a data field named `id` overrides the document id |
| `Firestore.MapDocs` | studybuddy/src/firestore.js:18-20 | the snapshot mapping keeps the number and order of the documents, item `i` being built from document `i` |
| `Firestore.CreateFields` | studybuddy/src/firestore.js:24-31 | a create request carries exactly `uid`, `title`, `content`, `createdAt` and `updatedAt`, and both timestamps are server-assigned |
| `Firestore.CreatedNoteReadBack` | studybuddy/src/firestore.js:19-31 | a created note read back in a snapshot shows the store-assigned id, its owner and texts, and equal creation and update times |
| `Firestore.UpdateFields` | studybuddy/src/firestore.js:34-38 | an update carries the caller's fields plus `updatedAt`, which is the server timestamp even when the caller supplied one |
| `Firestore.UpdateApplied` | studybuddy/src/firestore.js:34-38 | once the store applies an update, the fields sent hold the sent values, `updatedAt` holds the commit time and the other stored fields are kept |
| `CloudFunctions.Param` | studybuddy/functions/index.js:15 | `req.data \|\| {}` then destructuring: a missing payload reads every parameter as `undefined` |
| `CloudFunctions.SummaryOf` | studybuddy/functions/index.js:53-60 | the summary is never empty. It is the fallback "Aucun résumé." or the trimmed completion text. A truthy non-string text throws a non-`HttpsError` |
| `CloudFunctions.SummaryFallback` | studybuddy/functions/index.js:53-60 | for a string completion, the summary is the fallback exactly when the text is all white space, and otherwise the trimmed text |
| `CloudFunctions.AsHttpsError` | studybuddy/functions/index.js:68-74 | an `HttpsError` is rethrown unchanged; anything else becomes an `HttpsError` with code `internal` |
| `CloudFunctions.SummarizeNote` | studybuddy/functions/index.js:9-75 | every error the function reports is an `HttpsError`. Every summary it returns is non-empty and is the one `SummaryOf` derives from the model's completion: the trimmed text, or the fallback. The model is asked only after the note was read, and is given that note's title and content, or `""` for each one that is missing |
| `CloudFunctions.FirstFailingIndex` | studybuddy/functions/index.js:11-30 | the position found is that of the first failing guard: all guards before it pass |
| `CloudFunctions.FirstFailure` | studybuddy/functions/index.js:11-30 | the outcome of a chain of early returns: nothing is raised exactly when every guard passes, and a raised code is that of a failing guard all of whose predecessors pass |
| `CloudFunctions.Guards` | studybuddy/functions/index.js:11-30 | the five checks in their order, with the codes they raise; all of them pass exactly when the caller is signed in, names a note, the note exists and the caller owns it |
| `CloudFunctions.SummarizeBody` | studybuddy/functions/index.js:10-67 | the collaborator calls happen in the order read, model, write. The read is always of the requested note. The model is asked only once all four guards passed, and it gets the stored note's title and content (`""` when missing). The write goes to the requested note, and stores the summary derived from the completion together with a server timestamp. A guard error means at most the read was made. A returned summary means all three calls were made, and it is the one `SummaryOf` derives from the completion. The guard codes and messages are stated by `GuardOrder` and `ErrorMapping` |
| `CloudFunctions.GuardOrder` | studybuddy/functions/index.js:11-30 | the first failing guard decides the error: unauthenticated, then invalid-argument, then not-found (a failed read is `internal`), then permission-denied. A guard failure calls no model and makes no write; with all guards passing, the note is read and the model asked |
| `CloudFunctions.ReadOnlyAfterFirstGuards` | studybuddy/functions/index.js:11-22 | the store read happens exactly when the caller is signed in and names a note |
| `CloudFunctions.WriteOnlyAfterGuards` | studybuddy/functions/index.js:11-67 | an `aiSummary` write happens only if all four guards pass; it writes exactly `aiSummary` (non-empty) and a server `updatedAt` on the requested note. A successful reply returns the summary that was written |
| `CloudFunctions.ErrorMapping` | studybuddy/functions/index.js:68-74 | guard errors reach the caller as raised, and every other failure is reported as `internal` |
| `CloudFunctions.VerifyRecaptcha` | studybuddy/functions/index.js:82-109 | a falsy token gives invalid-argument before any verification call; a falsy `success` gives permission-denied; `{ok: true}` exactly when the token is truthy and the answer's `success` is truthy |
| `Session.Settle` | studybuddy/src/App.jsx:56-64 | the re-seed effect: afterwards the recorded dependencies are the current ones; the buffer is re-seeded from the selection exactly when a dependency changed, and otherwise nothing changes; nothing but the buffer and the recorded dependencies ever changes |
| `Session.OnAuth` | studybuddy/src/App.jsx:42-54 | the same user changes nothing. Signing out empties the list, clears the selection and closes the subscription. A new user gets a subscription for that account that captured the current `selectedId`, with the list, the selection and the list object's identity kept until its first snapshot. When the buffer was already seeded, the new user also keeps the edited title and content. `busy`, `status` and the captcha flags are never touched |
| `Session.OnSnapshot` | studybuddy/src/App.jsx:48-51 | while subscribed, the list becomes the mapped documents as a new list object, with account, subscription, `busy`, `status` and the captcha flags kept and the effect settled; only the list, the selection and the buffer change; with no subscription nothing changes (the auto-select is stated by `SessionProperties.AutoSelectUsesCapturedValue`) |
| `Session.OnSelect` | studybuddy/src/App.jsx:218 | a click selects the clicked item's id and leaves a note with that id selected; only the selection and the buffer change |
| `Session.CallFor` | studybuddy/src/App.jsx:66-133 | the request of each handler: create sends the owner and the default texts; save sends `updateNote` on the selected note's id with the buffer's title and content; delete and summarize name the selected note's id; upload names the account, the selected note and the file |
| `Session.FindIndex` | studybuddy/src/App.jsx:25-28 | `selected` is the first note whose `id` equals `selectedId`, or none exactly when no note has that id |
| `Session.OnEditTitle` | studybuddy/src/App.jsx:242-246 | typing replaces the title and leaves every other part of the state as it was, so the selection and the effect's dependencies are untouched |
| `Session.OnEditContent` | studybuddy/src/App.jsx:249-254 | typing replaces the content and leaves every other part of the state as it was, so the selection and the effect's dependencies are untouched |
| `Session.UploadLink` | studybuddy/src/App.jsx:119 | the second upload request updates the note it started on with exactly `fileURL`, `filePath` and a server `updatedAt` |
| `Session.Start` | studybuddy/src/App.jsx:66-131 | a handler sends a request exactly when its guard passes, and the request is the handler's own (`CallFor`). A failing guard changes nothing; a passing one sets `busy` to true and `status` to `""` and changes nothing else |
| `Session.Finish` | studybuddy/src/App.jsx:70-141 | after a command, on both paths, `busy` is false. Success shows the command's fixed string. Failure shows `"❌ "` and the message or default. Only a successful delete clears `selectedId`. The list, its identity, the user, the subscription and the captcha flags are unchanged. Except after a successful delete, a seeded buffer keeps its edited title and content. Nothing other than `busy`, `status`, the selection and the buffer changes |
| `Session.CaptchaStart` | studybuddy/src/App.jsx:143-147 | starting verification sets `captchaLoading` and withdraws `captchaOk`, sends the token, and changes nothing else |
| `Session.CaptchaFinish` | studybuddy/src/App.jsx:146-154 | `captchaOk` is the verification's success, `captchaLoading` is false on both paths, and nothing else changes |
| `SessionProperties.InitInv` | studybuddy/src/App.jsx:15-34 | the initial state satisfies the session invariant |
| `SessionProperties.StepPreservesInv` | studybuddy/src/App.jsx:42-64 | every admissible event keeps the invariant. Signed out means an empty list, no selection and no subscription. Signed in means a subscription for that account. The re-seed effect is settled. No selection means an empty buffer |
| `SessionProperties.RunPreservesInv` | studybuddy/src/App.jsx:42-64 | every admissible sequence of events keeps the invariant |
| `SessionProperties.SnapshotReplacesNotes` | studybuddy/src/App.jsx:48-49 | while subscribed, a snapshot replaces `notes` wholesale by the mapped documents; without a subscription nothing happens |
| `SessionProperties.SignOutClears` | studybuddy/src/App.jsx:42-47 | when the user becomes absent, `notes` is `[]`, `selectedId` is `null`, the subscription is closed and the buffer is empty |
| `SessionProperties.AutoSelectUsesCapturedValue` | studybuddy/src/App.jsx:48-54 | a snapshot selects its first item's id iff the captured (not the current) `selectedId` is falsy and the snapshot is non-empty; otherwise the selection is kept |
| `SessionProperties.SignInCapturesNull` | studybuddy/src/App.jsx:42-54 | signing in from the signed-out state opens a subscription that captured `null` |
| `SessionProperties.SubscriptionStable` | studybuddy/src/App.jsx:42-54 | only an auth change opens, closes or replaces the subscription |
| `SessionProperties.BusyStable` | studybuddy/src/App.jsx:66-142 | only the command handlers set `busy` and `status`: across any run of auth changes, snapshots, clicks, typing and captcha events both keep their values, so a command stays in flight while snapshots arrive |
| `SessionProperties.SessionSnapshotsSelectFirst` | studybuddy/src/App.jsx:48-54 | after a signed-out to signed-in transition, every non-empty snapshot of that session selects its first note, whatever was selected in between |
| `SessionProperties.NewListReseeds` | studybuddy/src/App.jsx:56-64 | installing a new list object re-seeds the buffer from the selection, because a selected note of the new list is a new object; with nothing selected the buffer is empty either way |
| `SessionProperties.SnapshotReseedsBuffer` | studybuddy/src/App.jsx:56-64 | after every snapshot the buffer is (`title \|\| ""`, `content \|\| ""`) of the selected note, or (`""`, `""`), so unsaved edits are discarded |
| `SessionProperties.SelectionChangeReseeds` | studybuddy/src/App.jsx:56-64 | any event that changes `selectedId` or the selected object leaves the buffer seeded from the new selection |
| `SessionProperties.UnchangedSelectionKeepsBuffer` | studybuddy/src/App.jsx:56-64 | conversely, a non-edit event that changes neither dependency leaves the buffer, unsaved edits included, as it was |
| `SessionProperties.ClickShowsNote` | studybuddy/src/App.jsx:215-218 | clicking an item with an unshared id selects it. The buffer shows its stored texts when the click changes the id or no edits were pending. Clicking the already-selected item keeps the edits |
| `SessionProperties.EnabledMatchesGuard` | studybuddy/src/App.jsx:205 | each control is enabled exactly when the session is idle and its handler's guard would pass (lines 205, 232-233, 261, 275 against 67, 81, 95, 110, 129) |
| `SessionProperties.StatusTellsOutcome` | studybuddy/src/App.jsx:72-74 | failure statuses, and only they, start with the cross mark, which a message always follows |
| `SessionProperties.CommandRoundTrip` | studybuddy/src/App.jsx:66-126 | a started command that finishes leaves `busy` false on both paths. The list, account and captcha flags are as before. The status is the success string or a cross-mark error |
| `SessionProperties.FailureMessage` | studybuddy/src/App.jsx:134-138 | a failure shows the error's message, or the default "Erreur", "Erreur upload" or "Erreur OpenAI" when it has none |
| `SessionProperties.DeleteClearsOnlyOnSuccess` | studybuddy/src/App.jsx:94-107 | a successful delete clears `selectedId`; a failed one keeps the selection and the buffer |
| `SessionProperties.SummarizeLeavesNotes` | studybuddy/src/App.jsx:128-142 | summarize never modifies `notes`, the selection or the buffer, on either path |
| `SessionProperties.CaptchaGatesLogin` | studybuddy/src/App.jsx:176-179 | login is disabled while a verification is pending, and enabled after it exactly when it succeeded |
| `SessionProperties.CaptchaOkOnlyBySuccess` | studybuddy/src/App.jsx:143-155 | `captchaOk` becomes true only through a successful verification |
| `SessionProperties.SnapshotOwnedAndRecent` | studybuddy/src/firestore.js:17 | given the query's filter and order, a snapshot leaves only the account's notes, and an auto-select picks the most recently updated note |
| `Scenarios.ClientOutcome` | studybuddy/src/openai.js:4-8 | the client's await succeeds exactly when the callable returned; an `HttpsError` reaches it with its message |
| `Scenarios.CaptchaRoundTrip` | studybuddy/functions/index.js:82-109 | across client and server, login ends up enabled exactly when the token is truthy and the verification service answered `success`; a falsy token makes no verification call |
| `Scenarios.SummarizeRoundTrip` | studybuddy/src/App.jsx:128-142 | the status reports success exactly when the function returned, and the page's list, selection and buffer are untouched. The returned summary is what the stored note's `aiSummary` becomes |
| `Scenarios.UploadLinksFile` | studybuddy/src/App.jsx:109-126 | an upload sends the file for the selected note; once the link is applied, the note has the file's URL and path and keeps its other fields |
| `Scenarios.CreateThenSelect` | studybuddy/src/App.jsx:66-78 | a created note, delivered by a snapshot and clicked, shows the default title and content in the buffer |

## Left out

- Sign-in popups, sign-out and the auth listener's transport (studybuddy/src/auth.js): the listener's delivered user is an event parameter and the login buttons are only the `LoginEnabled` predicate.
- Store transport, the upload to blob storage and the download-URL retrieval (studybuddy/src/storage.js): their outcomes are parameters; the storage path depends on the clock and is carried as an opaque string.
- App Check initialisation (studybuddy/src/AppCheck.js): configuration only.
- The callable wrapper (studybuddy/src/openai.js): it forwards `{noteId}` and returns `res.data`; `Scenarios.ClientOutcome` stands in for it.
- The OpenAI request (studybuddy/functions/index.js:36-51): the prompt text, model name and floating-point temperature; the completion text is a parameter.
- The reCAPTCHA HTTP request and JSON parse (studybuddy/functions/index.js:87-102): `data.success` is a parameter; a failed fetch is a non-`HttpsError` that the function does not catch, and what the hosting framework turns it into is not modelled.
- JSX rendering, CSS, `console.log` and `alert`: only the enable/disable predicates are kept.
- Real async interleaving and React batching: each command is a start and a finish event, commands start only when not busy, and one captcha verification runs at a time; overlapping commands are not modelled.
- Upload's two awaits are one finish outcome; the second request is given by `Session.UploadLink`.
- `OnAuth` reruns the `[user]` effect when the delivered user value differs from the held one; object identity of user objects is not modelled.
- JavaScript's `===` is structural equality on `Value`: two distinct timestamp objects with the same time compare equal here, and `NaN` is not modelled.
- Numbers are unbounded integers; error messages are strings or absent (a non-string `message` is not modelled).
- The subscription's filter and order are assumptions on delivered snapshots (`Firestore.MatchesQuery`), used only where a property needs them.
- Latency-compensated snapshots: after the client's own write, the store first delivers a local snapshot in which a pending `serverTimestamp()` field reads as `null`. The modelled snapshots are the server-acknowledged ones, where every timestamp is resolved (`Firestore.Resolve`); `MatchesQuery` and `CreatedNoteReadBack` speak of those only.

=== FILE: cloud_functions.dfy ===
/** The two callable Cloud Functions (studybuddy/functions/index.js):
    `summarizeNote`, an ordered guard chain followed by a summary derivation
    and a write-back, and `verifyRecaptchaV2`, a two-guard token check.  The
    store read, the language-model completion, the store write and the
    verification fetch are collaborators whose outcomes are parameters. */
module CloudFunctions {
  import opened Wrappers
  import opened JsValues
  import JsStrings

  /** The error codes the functions raise through `HttpsError`. */
  datatype ErrorCode = Unauthenticated | InvalidArgument | NotFound | PermissionDenied | Internal

  /** A thrown value: an `HttpsError`, or anything else (a failed collaborator
      call, a `TypeError`). */
  datatype Thrown = Https(code: ErrorCode, message: string) | Other

  /** How a call ended: a returned value or a thrown one. */
  datatype Reply<+T> = Returned(value: T) | Threw(error: Thrown)

  /** The caller identity of a callable request (`req.auth`). */
  datatype Auth = Auth(uid: string)

  /** The outcome of reading the note document. */
  datatype ReadOutcome = ReadFailed | Missing | Exists(data: Fields)

  /** The outcome of the chat-completion request: `text` is
      `completion.choices[0].message.content`, `Undefined` when any link of
      that chain is absent. */
  datatype Completion = CompletionFailed | Completed(text: Value)

  /** The calls `summarizeNote` makes to its collaborators, in order. */
  datatype Backend =
    | ReadNote(noteId: Value)
    | AskModel(title: Value, content: Value)
    | WriteNote(noteId: Value, fields: Fields)

  /** One run of `summarizeNote`: the collaborator calls it made and how it ended. */
  datatype SummarizeRun = SummarizeRun(calls: seq<Backend>, reply: Reply<string>)

  const NoSummary: string := "Aucun résumé."
  const InternalMessage: string := "Erreur serveur OpenAI/Function."

  /** `const {noteId} = req.data || {}` (likewise `token`): a missing or falsy
      payload reads every property as `undefined`. */
  function Param(data: Option<Fields>, key: string): (v: Value)
    ensures data.None? ==> v == Undefined
    ensures data.Some? ==> v == Prop(data.value, key)
  {
    match data
    case None => Undefined
    case Some(f) => Prop(f, key)
  }

  /** The summary text: the trimmed completion text, or the fallback when that
      text is missing or trims to nothing.  A truthy text that is not a string
      has no `trim` method, so the call throws. */
  function SummaryOf(text: Value): (r: Reply<string>)
    ensures r.Returned? ==> r.value != ""
    ensures r.Returned? ==> r.value == NoSummary || (text.Str? && r.value == JsStrings.Trim(text.s))
    ensures r.Threw? <==> Truthy(text) && !text.Str?
    ensures r.Threw? ==> r.error == Other
  {
    if !Truthy(text) then Returned(NoSummary)
    else match text
      case Str(t) =>
        var trimmed := JsStrings.Trim(t);
        if trimmed == "" then Returned(NoSummary) else Returned(trimmed)
      case _ => Threw(Other)
  }

  /** The summary is the trimmed text exactly when that is not empty. */
  lemma SummaryFallback(t: string)
    ensures SummaryOf(Str(t)) == Returned(if JsStrings.AllSpace(t) then NoSummary else JsStrings.Trim(t))
  {
    JsStrings.TrimEmptyIffAllSpace(t);
  }

  /** The `try` body of `summarizeNote`, up to the point where it returns or
      throws. */
  function SummarizeBody(auth: Option<Auth>, data: Option<Fields>, read: ReadOutcome,
                         completion: Completion, writeOk: bool): (run: SummarizeRun)
    ensures |run.calls| <= 3
    ensures run.calls != [] ==> run.calls[0] == ReadNote(Param(data, "noteId"))
    ensures |run.calls| >= 2 ==>
      && read.Exists?
      && run.calls[1] == AskModel(OrEmpty(Prop(read.data, "title")), OrEmpty(Prop(read.data, "content")))
    ensures |run.calls| >= 2 ==>
      && auth.Some? && Truthy(Param(data, "noteId"))
      && read.Exists? && Prop(read.data, "uid") == Str(auth.value.uid)
    ensures |run.calls| == 3 ==>
      && completion.Completed? && SummaryOf(completion.text).Returned?
      && run.calls[2] == WriteNote(Param(data, "noteId"),
                                   map["aiSummary" := Str(SummaryOf(completion.text).value),
                                       "updatedAt" := ServerTimestamp])
    ensures run.reply.Returned? ==> |run.calls| == 3
    ensures run.reply.Threw? && run.reply.error.Https? ==> |run.calls| <= 1
    ensures run.reply.Returned? ==>
      && completion.Completed? && SummaryOf(completion.text) == Returned(run.reply.value)
      && run.calls[2] == WriteNote(Param(data, "noteId"),
                                   map["aiSummary" := Str(run.reply.value), "updatedAt" := ServerTimestamp])
  {
    if auth.None? then
      SummarizeRun([], Threw(Https(Unauthenticated, "Vous devez être connecté.")))
    else
      var noteId := Param(data, "noteId");
      if !Truthy(noteId) then
        SummarizeRun([], Threw(Https(InvalidArgument, "noteId manquant.")))
      else
        var uid := auth.value.uid;
        match read
        case ReadFailed => SummarizeRun([ReadNote(noteId)], Threw(Other))
        case Missing => SummarizeRun([ReadNote(noteId)], Threw(Https(NotFound, "Note introuvable.")))
        case Exists(note) =>
          if Prop(note, "uid") != Str(uid) then
            SummarizeRun([ReadNote(noteId)], Threw(Https(PermissionDenied, "Accès refusé.")))
          else
            var ask := AskModel(OrEmpty(Prop(note, "title")), OrEmpty(Prop(note, "content")));
            match completion
            case CompletionFailed => SummarizeRun([ReadNote(noteId), ask], Threw(Other))
            case Completed(text) =>
              match SummaryOf(text)
              case Threw(e) => SummarizeRun([ReadNote(noteId), ask], Threw(e))
              case Returned(summary) =>
                var write := WriteNote(noteId, map["aiSummary" := Str(summary), "updatedAt" := ServerTimestamp]);
                if writeOk then SummarizeRun([ReadNote(noteId), ask, write], Returned(summary))
                else SummarizeRun([ReadNote(noteId), ask, write], Threw(Other))
  }

  /** The `catch` of `summarizeNote`: an `HttpsError` is rethrown as it is,
      anything else becomes an `internal` error. */
  function AsHttpsError(e: Thrown): (r: Thrown)
    ensures r.Https?
    ensures e.Https? ==> r == e
    ensures e.Other? ==> r.code == Internal
  {
    match e
    case Https(_, _) => e
    case Other => Https(Internal, InternalMessage)
  }

  /** `summarizeNote`: the body with its catch-all error mapping. */
  function SummarizeNote(auth: Option<Auth>, data: Option<Fields>, read: ReadOutcome,
                         completion: Completion, writeOk: bool): (run: SummarizeRun)
    ensures run.reply.Threw? ==> run.reply.error.Https?
    ensures run.reply.Returned? ==> run.reply.value != ""
    ensures run.reply.Returned? ==>
      && |run.calls| == 3 && completion.Completed?
      && SummaryOf(completion.text) == Returned(run.reply.value)
    ensures |run.calls| >= 2 ==>
      && read.Exists?
      && run.calls[1] == AskModel(OrEmpty(Prop(read.data, "title")), OrEmpty(Prop(read.data, "content")))
  {
    var body := SummarizeBody(auth, data, read, completion, writeOk);
    match body.reply
    case Returned(_) => body
    case Threw(e) => SummarizeRun(body.calls, Threw(AsHttpsError(e)))
  }

  /** The four guards of `summarizeNote`, in the order it checks them, each
      with the code it raises.  A read that throws sits at the position of the
      existence check and surfaces as `internal`. */
  function Guards(auth: Option<Auth>, data: Option<Fields>, read: ReadOutcome): (g: seq<(bool, ErrorCode)>)
    ensures |g| == 5
    ensures FirstFailure(g).None? <==>
      && auth.Some? && Truthy(Param(data, "noteId"))
      && read.Exists? && Prop(read.data, "uid") == Str(auth.value.uid)
  {
    var uid := if auth.Some? then auth.value.uid else "";
    var g := [ (auth.None?, Unauthenticated),
               (!Truthy(Param(data, "noteId")), InvalidArgument),
               (read.ReadFailed?, Internal),
               (read.Missing?, NotFound),
               (read.Exists? && Prop(read.data, "uid") != Str(uid), PermissionDenied) ];
    assert (forall i :: 0 <= i < |g| ==> !g[i].0) <==> !g[0].0 && !g[1].0 && !g[2].0 && !g[3].0 && !g[4].0;
    g
  }

  /** The position of the first failing guard of an ordered list, or the
      list's length when every guard passes. */
  function FirstFailingIndex(guards: seq<(bool, ErrorCode)>): (i: nat)
    ensures i <= |guards|
    ensures forall j :: 0 <= j < i ==> !guards[j].0
    ensures i < |guards| ==> guards[i].0
  {
    if guards == [] || guards[0].0 then 0
    else 1 + FirstFailingIndex(guards[1..])
  }

  /** The code of the first failing guard, if any fails. */
  function FirstFailure(guards: seq<(bool, ErrorCode)>): (r: Option<ErrorCode>)
    ensures r.None? <==> forall i :: 0 <= i < |guards| ==> !guards[i].0
    ensures r.Some? ==> exists i :: 0 <= i < |guards| && guards[i].0 && r.value == guards[i].1
                                   && forall j :: 0 <= j < i ==> !guards[j].0
  {
    var i := FirstFailingIndex(guards);
    if i < |guards| then Some(guards[i].1) else None
  }

  /** The first failing guard decides the error: when one fails,
      `summarizeNote` throws that guard's code and never calls the model or
      writes; when none fails, it has read the note and asked the model. */
  lemma {:induction false} GuardOrder(auth: Option<Auth>, data: Option<Fields>, read: ReadOutcome,
                                      completion: Completion, writeOk: bool)
    ensures var run := SummarizeNote(auth, data, read, completion, writeOk);
      match FirstFailure(Guards(auth, data, read))
      case Some(code) =>
        run.reply.Threw? && run.reply.error.code == code && |run.calls| <= 1
      case None =>
        |run.calls| >= 2 && run.calls[0] == ReadNote(Param(data, "noteId")) && run.calls[1].AskModel?
  {
    var g := Guards(auth, data, read);
    var i := FirstFailingIndex(g);
    if auth.None? {
      assert g[0].0;
    } else if !Truthy(Param(data, "noteId")) {
      assert !g[0].0 && g[1].0;
    } else if read.ReadFailed? {
      assert !g[0].0 && !g[1].0 && g[2].0;
    } else if read.Missing? {
      assert !g[0].0 && !g[1].0 && !g[2].0 && g[3].0;
    } else if Prop(read.data, "uid") != Str(auth.value.uid) {
      assert !g[0].0 && !g[1].0 && !g[2].0 && !g[3].0 && g[4].0;
    } else {
      assert forall j :: 0 <= j < |g| ==> !g[j].0;
    }
  }

  /** The store read happens only once the caller is signed in and names a
      note. */
  lemma ReadOnlyAfterFirstGuards(auth: Option<Auth>, data: Option<Fields>, read: ReadOutcome,
                                 completion: Completion, writeOk: bool)
    ensures var run := SummarizeNote(auth, data, read, completion, writeOk);
      run.calls != [] <==> auth.Some? && Truthy(Param(data, "noteId"))
  {
  }

  /** No `aiSummary` write happens unless all four guards pass; a write, when
      made, stores a non-empty summary and a server-assigned update time on the
      requested note, and a successful reply returns exactly the summary
      written. */
  lemma WriteOnlyAfterGuards(auth: Option<Auth>, data: Option<Fields>, read: ReadOutcome,
                             completion: Completion, writeOk: bool)
    ensures var run := SummarizeNote(auth, data, read, completion, writeOk);
      && (forall k :: 0 <= k < |run.calls| && run.calls[k].WriteNote? ==>
            && FirstFailure(Guards(auth, data, read)).None?
            && run.calls[k].noteId == Param(data, "noteId")
            && run.calls[k].fields.Keys == {"aiSummary", "updatedAt"}
            && run.calls[k].fields["updatedAt"] == ServerTimestamp
            && run.calls[k].fields["aiSummary"] != Str(""))
      && (run.reply.Returned? ==>
            && |run.calls| == 3
            && run.calls[2] == WriteNote(Param(data, "noteId"),
                                         map["aiSummary" := Str(run.reply.value), "updatedAt" := ServerTimestamp]))
  {
  }

  /** Every error `summarizeNote` reports is an `HttpsError`: one a guard
      raised is reported unchanged, and every other failure (the store read or
      write, the model request, a non-string completion) is `internal`. */
  lemma ErrorMapping(auth: Option<Auth>, data: Option<Fields>, read: ReadOutcome,
                     completion: Completion, writeOk: bool)
    ensures var body := SummarizeBody(auth, data, read, completion, writeOk);
      var run := SummarizeNote(auth, data, read, completion, writeOk);
      && run.calls == body.calls
      && (body.reply.Threw? && body.reply.error.Https? ==> run.reply == body.reply)
      && (body.reply.Threw? && body.reply.error.Other? ==> run.reply == Threw(Https(Internal, InternalMessage)))
      && (body.reply.Returned? ==> run.reply == body.reply)
  {
  }

  /** The outcome of the `siteverify` request: the `success` field of its JSON
      answer, or a failure of the fetch itself. */
  datatype SiteVerify = FetchFailed | Answered(success: Value)

  /** One run of `verifyRecaptchaV2`: the token it sent for verification, if
      any, and how it ended (`Returned(true)` is `{ok: true}`). */
  datatype VerifyRun = VerifyRun(sent: Option<Value>, reply: Reply<bool>)

  /** `verifyRecaptchaV2`: a falsy token is rejected before any verification
      call; a verification answer whose `success` is falsy is rejected; any
      other answer yields `{ok: true}`.  A failed fetch escapes uncaught. */
  function VerifyRecaptcha(data: Option<Fields>, answer: SiteVerify): (run: VerifyRun)
    ensures run.sent.Some? <==> Truthy(Param(data, "token"))
    ensures run.sent.Some? ==> run.sent.value == Param(data, "token")
    ensures run.reply.Returned? <==> Truthy(Param(data, "token")) && answer.Answered? && Truthy(answer.success)
    ensures run.reply.Returned? ==> run.reply.value
    ensures !Truthy(Param(data, "token")) ==> run.reply == Threw(Https(InvalidArgument, "Token reCAPTCHA manquant."))
    ensures Truthy(Param(data, "token")) && answer.Answered? && !Truthy(answer.success) ==>
              run.reply == Threw(Https(PermissionDenied, "Échec reCAPTCHA. Réessaie."))
  {
    var token := Param(data, "token");
    if !Truthy(token) then VerifyRun(None, Threw(Https(InvalidArgument, "Token reCAPTCHA manquant.")))
    else match answer
      case FetchFailed => VerifyRun(Some(token), Threw(Other))
      case Answered(success) =>
        if !Truthy(success) then VerifyRun(Some(token), Threw(Https(PermissionDenied, "Échec reCAPTCHA. Réessaie.")))
        else VerifyRun(Some(token), Returned(true))
  }
}

=== FILE: firestore.dfy ===
/** Record shaping of the client's store access layer (studybuddy/src/firestore.js):
    how a query snapshot becomes the list of note items, and which fields the
    create and update requests carry.  The store's own merge of an update and
    its replacement of server-timestamp placeholders are modelled too, so that
    end-to-end properties can follow a request into the next server-acknowledged
    snapshot. */
module Firestore {
  import opened JsValues

  /** One document of a query snapshot: the store-assigned id and the data. */
  datatype Doc = Doc(id: string, data: Fields)

  /** `{ id: d.id, ...d.data() }`: the data with the document id added under
      `id`.  The spread comes last, so a data field named `id` wins. */
  function ItemOf(d: Doc): (item: Fields)
    ensures item.Keys == d.data.Keys + {"id"}
    ensures forall k :: k in d.data ==> item[k] == d.data[k]
    ensures "id" !in d.data ==> item["id"] == Str(d.id)
  {
    map["id" := Str(d.id)] + d.data
  }

  /** `snap.docs.map(...)`: one item per document, in snapshot order. */
  function MapDocs(docs: seq<Doc>): (items: seq<Fields>)
    ensures |items| == |docs|
    ensures forall i :: 0 <= i < |docs| ==> items[i] == ItemOf(docs[i])
  {
    if docs == [] then [] else [ItemOf(docs[0])] + MapDocs(docs[1..])
  }

  /** The `id` an item shows: the data's own `id` field when it has one,
      otherwise the document id. */
  lemma ItemIdOverride(d: Doc)
    ensures Prop(ItemOf(d), "id") == (if "id" in d.data then d.data["id"] else Str(d.id))
    ensures "id" in d.data && d.data["id"] != Str(d.id) ==> Prop(ItemOf(d), "id") != Str(d.id)
  {
  }

  /** The fields `createNote(uid, title, content)` sends: exactly the owner,
      the two texts and two server-assigned timestamps. */
  function CreateFields(uid: string, title: string, content: string): (f: Fields)
    ensures f.Keys == {"uid", "title", "content", "createdAt", "updatedAt"}
    ensures f["uid"] == Str(uid) && f["title"] == Str(title) && f["content"] == Str(content)
    ensures f["createdAt"] == ServerTimestamp && f["updatedAt"] == ServerTimestamp
  {
    map["uid" := Str(uid), "title" := Str(title), "content" := Str(content),
        "createdAt" := ServerTimestamp, "updatedAt" := ServerTimestamp]
  }

  /** The fields `updateNote(noteId, data)` sends: the caller's fields plus
      `updatedAt`.  `updatedAt` comes after the spread, so it is the server
      timestamp even when the caller supplied one. */
  function UpdateFields(data: Fields): (f: Fields)
    ensures f.Keys == data.Keys + {"updatedAt"}
    ensures f["updatedAt"] == ServerTimestamp
    ensures forall k :: k in data && k != "updatedAt" ==> f[k] == data[k]
  {
    data["updatedAt" := ServerTimestamp]
  }

  /** The store replaces every server-timestamp placeholder by the commit time. */
  function Resolve(f: Fields, now: int): (g: Fields)
    ensures g.Keys == f.Keys
    ensures forall k :: k in f ==> g[k] == (if f[k] == ServerTimestamp then Time(now) else f[k])
  {
    map k | k in f :: if f[k] == ServerTimestamp then Time(now) else f[k]
  }

  /** The store's handling of an update: the named top-level fields are
      replaced, every other stored field is kept. */
  function ApplyUpdate(stored: Fields, update: Fields, now: int): (g: Fields)
    ensures g.Keys == stored.Keys + update.Keys
    ensures forall k :: k in stored && k !in update ==> g[k] == stored[k]
  {
    stored + Resolve(update, now)
  }

  /** A note written by `createNote` and read back in a snapshot shows the
      store-assigned id, the owner and texts it was created with, and equal
      creation and update times. */
  lemma CreatedNoteReadBack(id: string, uid: string, title: string, content: string, now: int)
    ensures var item := ItemOf(Doc(id, Resolve(CreateFields(uid, title, content), now)));
      && item.Keys == {"id", "uid", "title", "content", "createdAt", "updatedAt"}
      && item["id"] == Str(id)
      && item["uid"] == Str(uid)
      && item["title"] == Str(title)
      && item["content"] == Str(content)
      && item["createdAt"] == item["updatedAt"] == Time(now)
  {
  }

  /** After the store applies `updateNote(noteId, data)`, each field the
      caller sent (other than `updatedAt`) holds the caller's value, with
      placeholders resolved, and `updatedAt` holds the commit time. */
  lemma UpdateApplied(stored: Fields, data: Fields, now: int)
    ensures var g := ApplyUpdate(stored, UpdateFields(data), now);
      && g["updatedAt"] == Time(now)
      && (forall k :: k in data && k != "updatedAt" ==>
            g[k] == (if data[k] == ServerTimestamp then Time(now) else data[k]))
      && (forall k :: k in stored && k !in data && k != "updatedAt" ==> g[k] == stored[k])
  {
  }

  /** The update time the ordering of the subscription query reads. */
  function UpdatedAt(d: Doc): int {
    match Prop(d.data, "updatedAt")
    case Time(ms) => ms
    case _ => 0
  }

  /** What the subscription query (`where("uid", "==", uid)`,
      `orderBy("updatedAt", "desc")`) guarantees of a delivered snapshot:
      every document belongs to `uid`, carries a stored update time, and the
      update times do not increase along the list.  Document ids are distinct
      within a collection.  This describes server-acknowledged snapshots; the
      local snapshot delivered right after the client's own write, in which
      pending server timestamps read as `null`, is not modelled. */
  ghost predicate MatchesQuery(docs: seq<Doc>, uid: string) {
    && (forall i :: 0 <= i < |docs| ==> Prop(docs[i].data, "uid") == Str(uid))
    && (forall i :: 0 <= i < |docs| ==> Prop(docs[i].data, "updatedAt").Time?)
    && (forall i, j :: 0 <= i < j < |docs| ==> UpdatedAt(docs[j]) <= UpdatedAt(docs[i]))
    && (forall i, j :: 0 <= i < j < |docs| ==> docs[i].id != docs[j].id)
  }
}

=== FILE: js_strings.dfy ===
/** `String.prototype.trim` of ECMAScript (section 22.1.3.32 of ECMA-262, 2024 edition):
    strip white space and line terminators from both ends of a string. */
module JsStrings {

  /** The WhiteSpace and LineTerminator code points of ECMA-262, sections
      12.2 and 12.3: tab, line feed, vertical tab, form feed, carriage
      return, space, no-break space, the Unicode space separators, the line
      and paragraph separators, and the byte-order mark. */
  predicate IsJsSpace(c: char) {
    var n := c as int;
    || n == 0x09 || n == 0x0A || n == 0x0B || n == 0x0C || n == 0x0D
    || n == 0x20 || n == 0xA0 || n == 0x1680
    || (0x2000 <= n <= 0x200A)
    || n == 0x2028 || n == 0x2029 || n == 0x202F || n == 0x205F
    || n == 0x3000 || n == 0xFEFF
  }

  /** Every character of `s` is white space. */
  predicate AllSpace(s: string) {
    SpaceBetween(s, 0, |s|)
  }

  /** Every character of `s` at a position in `[lo, hi)` is white space. */
  predicate SpaceBetween(s: string, lo: int, hi: int)
    requires 0 <= lo && hi <= |s|
  {
    forall k :: lo <= k < hi ==> IsJsSpace(s[k])
  }

  /** The end of the run of white space that starts at `i`. */
  function SpaceRunFrom(s: string, i: nat): (n: nat)
    requires i <= |s|
    ensures i <= n <= |s|
    ensures SpaceBetween(s, i, n)
    ensures n == |s| || !IsJsSpace(s[n])
    decreases |s| - i
  {
    if i == |s| || !IsJsSpace(s[i]) then i
    else SpaceRunFrom(s, i + 1)
  }

  /** The start of the run of white space that ends at `j`, going no lower
      than `lo`. */
  function SpaceRunTo(s: string, lo: nat, j: nat): (n: nat)
    requires lo <= j <= |s|
    ensures lo <= n <= j
    ensures SpaceBetween(s, n, j)
    ensures n == lo || !IsJsSpace(s[n - 1])
    decreases j
  {
    if j == lo || !IsJsSpace(s[j - 1]) then j
    else SpaceRunTo(s, lo, j - 1)
  }

  /** `r` is what is left of `s` once the all-space prefix `s[..i]` and an
      all-space suffix are removed. */
  predicate StrippedAt(s: string, r: string, i: int) {
    && 0 <= i <= |s| - |r|
    && s[i..i + |r|] == r
    && SpaceBetween(s, 0, i)
    && SpaceBetween(s, i + |r|, |s|)
  }

  /** `s.trim()`: the infix of `s` left once the all-space prefix and suffix
      are removed.  What remains neither starts nor ends with white space, and
      everything removed was white space. */
  function Trim(s: string): (r: string)
    ensures |r| <= |s|
    ensures r == [] || (!IsJsSpace(r[0]) && !IsJsSpace(r[|r| - 1]))
    ensures exists i :: StrippedAt(s, r, i)
  {
    var a := SpaceRunFrom(s, 0);
    var e := SpaceRunTo(s, a, |s|);
    assert StrippedAt(s, s[a..e], a);
    s[a..e]
  }

  /** A string trims to the empty string exactly when it is all white space. */
  lemma TrimEmptyIffAllSpace(s: string)
    ensures Trim(s) == [] <==> AllSpace(s)
  {
    var r := Trim(s);
    var i :| StrippedAt(s, r, i);
    if r != [] {
      assert s[i] == r[0];
    }
  }
}

=== FILE: js_values.dfy ===
/** The slice of JavaScript's value model that the note records and request
    payloads use: primitives, stored timestamps and the server-timestamp
    sentinel, with the language's truthiness, `||` and property read. */
module JsValues {

  /** A field value of a note record or a request payload.  Numbers are
      modelled as integers; `Time` is a timestamp the store has assigned and
      `ServerTimestamp` the placeholder a client sends for it. */
  datatype Value =
    | Undefined
    | Null
    | Bool(b: bool)
    | Num(n: int)
    | Str(s: string)
    | Time(millis: int)
    | ServerTimestamp

  /** A plain object: a note record, a document's data or a payload. */
  type Fields = map<string, Value>

  /** JavaScript truthiness: `undefined`, `null`, `false`, `0` and `""` are
      falsy; every object (a timestamp, the sentinel) is truthy. */
  predicate Truthy(v: Value) {
    match v
    case Undefined => false
    case Null => false
    case Bool(b) => b
    case Num(n) => n != 0
    case Str(s) => s != ""
    case Time(_) => true
    case ServerTimestamp => true
  }

  /** `a || b`: the left operand when it is truthy, otherwise the right. */
  function Or(a: Value, b: Value): (r: Value)
    ensures Truthy(a) ==> r == a
    ensures !Truthy(a) ==> r == b
    ensures Truthy(r) <==> Truthy(a) || Truthy(b)
  {
    if Truthy(a) then a else b
  }

  /** `obj.key`: a missing property reads as `undefined`. */
  function Prop(obj: Fields, key: string): (r: Value)
    ensures key in obj ==> r == obj[key]
    ensures key !in obj ==> r == Undefined
  {
    if key in obj then obj[key] else Undefined
  }

  /** `x || ""`, the idiom the program uses to turn a missing text field into
      the empty string. */
  function OrEmpty(v: Value): (r: Value)
    ensures Truthy(v) ==> r == v
    ensures !Truthy(v) ==> r == Str("")
    ensures r != Undefined && r != Null
  {
    Or(v, Str(""))
  }
}

=== FILE: scenarios.dfy ===
/** End-to-end behaviour across the client session, the store and the
    callable functions: what the page shows after a request has gone through
    a collaborator and, where the change is stored, come back in a snapshot. */
module Scenarios {
  import opened Wrappers
  import opened JsValues
  import Firestore
  import CloudFunctions
  import opened Session
  import opened SessionProperties

  /** What the client's `await` sees of a callable's reply: success, or a
      rejection carrying the `HttpsError` message.  A non-`HttpsError` is
      given no message here; `summarizeNote` never produces one. */
  function ClientOutcome<T>(reply: CloudFunctions.Reply<T>): (o: Outcome)
    ensures o.Succeeded? <==> reply.Returned?
    ensures reply.Threw? && reply.error.Https? ==> o == Failed(Some(reply.error.message))
  {
    match reply
    case Returned(_) => Succeeded
    case Threw(e) => if e.Https? then Failed(Some(e.message)) else Failed(None)
  }

  /** A verification round trip: login ends up enabled exactly when the token
      was truthy and the verification service answered with a truthy
      `success`; a falsy token is rejected without any verification call. */
  lemma CaptchaRoundTrip(s: State, token: Value, answer: CloudFunctions.SiteVerify)
    requires !s.captchaLoading
    ensures var st := CaptchaStart(s, token);
      var run := CloudFunctions.VerifyRecaptcha(Some(map["token" := token]), answer);
      var r := CaptchaFinish(st.next, run.reply.Returned?);
      && st.call == Some(VerifyToken(token))
      && (LoginEnabled(r) <==> Truthy(token) && answer.Answered? && Truthy(answer.success))
      && (!Truthy(token) ==> run.sent.None?)
  {
    assert Prop(map["token" := token], "token") == token;
  }

  /** A summarize round trip: the status reports success exactly when the
      function returned, and the list, the selection and the buffer stay as
      they were; the summary the function returned is the one its write puts
      on the stored note, which the page shows only once a snapshot carries
      it. */
  lemma SummarizeRoundTrip(s: State, auth: Option<CloudFunctions.Auth>, read: CloudFunctions.ReadOutcome,
                           completion: CloudFunctions.Completion, writeOk: bool, now: int)
    requires Inv(s) && !s.busy && Selected(s).Some?
    ensures var st := Start(s, Summarize, None);
      var id := Prop(Selected(s).value, "id");
      var run := CloudFunctions.SummarizeNote(auth, Some(map["noteId" := id]), read, completion, writeOk);
      var r := Finish(st.next, Summarize, ClientOutcome(run.reply));
      && st.call == Some(SummarizeNote(id))
      && (r.status == SuccessStatus(Summarize) <==> run.reply.Returned?)
      && r.notes == s.notes && r.selectedId == s.selectedId
      && r.title == s.title && r.content == s.content
      && (run.reply.Returned? && read.Exists? ==>
            Prop(Firestore.ApplyUpdate(read.data, run.calls[2].fields, now), "aiSummary") == Str(run.reply.value))
  {
    var id := Prop(Selected(s).value, "id");
    var data := Some(map["noteId" := id]);
    var run := CloudFunctions.SummarizeNote(auth, data, read, completion, writeOk);
    SummarizeLeavesNotes(s, ClientOutcome(run.reply));
    CloudFunctions.WriteOnlyAfterGuards(auth, data, read, completion, writeOk);
    StatusTellsOutcome(Summarize, if run.reply.Threw? && run.reply.error.Https? then Some(run.reply.error.message) else None);
  }

  /** An upload sends the file for the selected note and then links it: once
      the store has applied the link, the note carries the file's URL and
      path, keeps its other fields, and has a new update time. */
  lemma UploadLinksFile(s: State, file: FileRef, url: string, path: string, stored: Fields, now: int)
    requires !s.busy && s.user.Some? && Selected(s).Some?
    ensures var id := Prop(Selected(s).value, "id");
      var link := UploadLink(id, url, path);
      var g := Firestore.ApplyUpdate(stored, link.fields, now);
      && Start(s, Upload, Some(file)).call == Some(UploadNoteFile(s.user.value.uid, id, file))
      && g["fileURL"] == Str(url) && g["filePath"] == Str(path) && g["updatedAt"] == Time(now)
      && (forall k :: k in stored && k !in {"fileURL", "filePath", "updatedAt"} ==> g[k] == stored[k])
  {
  }

  /** Creating a note and then clicking it once a snapshot delivers it: the
      create request carries the default texts, and the buffer then shows
      them.  The snapshot is the subscription's (so document ids are
      distinct) and no document overrides its id with a data field. */
  lemma CreateThenSelect(s: State, newId: string, now: int, docs: seq<Firestore.Doc>, i: nat)
    requires Inv(s) && !s.busy && s.user.Some?
    requires i < |docs| && docs[i] == Firestore.Doc(newId,
               Firestore.Resolve(Firestore.CreateFields(s.user.value.uid, DefaultTitle, DefaultContent), now))
    requires Firestore.MatchesQuery(docs, s.user.value.uid)
    requires forall j :: 0 <= j < |docs| ==> "id" !in docs[j].data
    ensures var st := Start(s, Create, None);
      var s1 := Finish(st.next, Create, Succeeded);
      var s2 := Step(s1, SnapshotDelivered(docs));
      && st.call == Some(AddNote(Firestore.CreateFields(s.user.value.uid, DefaultTitle, DefaultContent)))
      && s1.status == "✅ Note créée"
      && i < |s2.notes|
      && var s3 := Step(s2, ItemClicked(i));
         && Selected(s3) == Some(Firestore.ItemOf(docs[i]))
         && s3.title == Str(DefaultTitle) && s3.content == Str(DefaultContent)
  {
    var st := Start(s, Create, None);
    assert Inv(st.next) by {
      StepPreservesInv(s, CommandStarted(Create, None));
    }
    var s1 := Finish(st.next, Create, Succeeded);
    assert Inv(s1) && s1.subscription.Some? by {
      FinishPreservesInv(st.next, Create, Succeeded);
    }
    var s2 := Step(s1, SnapshotDelivered(docs));
    assert Inv(s2) && s2.notes == Firestore.MapDocs(docs) by {
      SnapshotPreservesInv(s1, docs);
    }
    assert (s2.title, s2.content) == Seed(Selected(s2)) by {
      SnapshotReseedsBuffer(s1, docs);
    }
    ClickDelivered(s2, docs, i);
    CreatedTexts(docs[i], newId, s.user.value.uid, now);
  }

  /** The item of a created note shows the default texts. */
  lemma CreatedTexts(d: Firestore.Doc, newId: string, uid: string, now: int)
    requires d == Firestore.Doc(newId, Firestore.Resolve(Firestore.CreateFields(uid, DefaultTitle, DefaultContent), now))
    ensures OrEmpty(Prop(Firestore.ItemOf(d), "title")) == Str(DefaultTitle)
    ensures OrEmpty(Prop(Firestore.ItemOf(d), "content")) == Str(DefaultContent)
  {
    Firestore.CreatedNoteReadBack(newId, uid, DefaultTitle, DefaultContent, now);
  }

  /** In a list freshly seeded from a snapshot whose document ids are
      distinct and not overridden, clicking an item selects it and shows its
      stored texts. */
  lemma ClickDelivered(s: State, docs: seq<Firestore.Doc>, i: nat)
    requires Inv(s) && s.notes == Firestore.MapDocs(docs) && (s.title, s.content) == Seed(Selected(s))
    requires i < |docs|
    requires forall j, k :: 0 <= j < k < |docs| ==> docs[j].id != docs[k].id
    requires forall j :: 0 <= j < |docs| ==> "id" !in docs[j].data
    ensures var r := Step(s, ItemClicked(i));
      && Selected(r) == Some(Firestore.ItemOf(docs[i]))
      && r.title == OrEmpty(Prop(Firestore.ItemOf(docs[i]), "title"))
      && r.content == OrEmpty(Prop(Firestore.ItemOf(docs[i]), "content"))
  {
    UnsharedId(s.notes, docs, i);
    ClickShowsNote(s, i);
    assert s.notes[i] == Firestore.ItemOf(docs[i]);
  }

  /** Items mapped from documents with distinct, not overridden ids carry
      distinct ids. */
  lemma UnsharedId(notes: seq<Fields>, docs: seq<Firestore.Doc>, i: nat)
    requires notes == Firestore.MapDocs(docs) && i < |docs|
    requires forall j, k :: 0 <= j < k < |docs| ==> docs[j].id != docs[k].id
    requires forall j :: 0 <= j < |docs| ==> "id" !in docs[j].data
    ensures forall j :: 0 <= j < i ==> Prop(notes[j], "id") != Prop(notes[i], "id")
  {
    forall j | 0 <= j < i ensures Prop(notes[j], "id") != Prop(notes[i], "id") {
      assert Prop(notes[j], "id") == Str(docs[j].id);
      assert Prop(notes[i], "id") == Str(docs[i].id);
    }
  }
}

=== FILE: session.dfy ===
/** The session controller of the web client (studybuddy/src/App.jsx): an
    immutable state record and one transition function per event.  Each
    transition applies the state updates of its handler and then lets the
    hook effects run, which makes the follow-up steps React performs after a
    render explicit:

    - the `[user]` effect (re)opens the notes subscription or clears the list;
    - the `[selectedId, selected]` effect re-seeds the edit buffer whenever
      one of its dependencies changed, `selected` compared by object identity.

    Commands are a start event (the click handler up to its `await`) and a
    finish event (the continuation), so snapshots may arrive in between.  The
    collaborator a command calls is described by the `Call` the start returns;
    its outcome is the finish event's parameter. */
module Session {
  import opened Wrappers
  import opened JsValues
  import Firestore

  /** The signed-in account as the auth listener delivers it. */
  datatype User = User(uid: string, displayName: Value, email: Value)

  /** The open notes subscription: the account it filters on and the
      `selectedId` its callback closure captured when it was opened. */
  datatype Subscription = Subscription(uid: string, capturedSel: Value)

  /** The identity of a note object: each snapshot builds fresh objects, so an
      object is named by the list it came from and its position there. */
  datatype Ident = Ident(generation: nat, index: nat)

  /** The dependency list `[selectedId, selected]` of the re-seed effect. */
  datatype Deps = Deps(selectedId: Value, selected: Option<Ident>)

  /** The component state.  `generation` counts the list objects `setNotes`
      has installed; `seeded` records the dependencies the re-seed effect last
      ran with. */
  datatype State = State(
    user: Option<User>,
    notes: seq<Fields>,
    generation: nat,
    selectedId: Value,
    title: Value,
    content: Value,
    busy: bool,
    status: string,
    captchaOk: bool,
    captchaLoading: bool,
    subscription: Option<Subscription>,
    seeded: Deps)

  /** The state after the first render and its effects: signed out, no notes,
      nothing selected, an empty buffer and idle flags. */
  function Init(): State {
    State(None, [], 0, Null, Str(""), Str(""), false, "", false, false, None, Deps(Null, None))
  }

  /** `notes.find((n) => n.id === selectedId)` as a position: the first note
      whose `id` equals `id`, or none when no note has it. */
  function FindIndex(notes: seq<Fields>, id: Value): (r: Option<nat>)
    ensures r.Some? ==> r.value < |notes| && Prop(notes[r.value], "id") == id
    ensures r.Some? ==> forall j :: 0 <= j < r.value ==> Prop(notes[j], "id") != id
    ensures r.None? <==> forall j :: 0 <= j < |notes| ==> Prop(notes[j], "id") != id
  {
    if notes == [] then None
    else if Prop(notes[0], "id") == id then Some(0)
    else match FindIndex(notes[1..], id)
      case None => None
      case Some(k) => Some(k + 1)
  }

  /** The `selected` memo: the first note whose id is `selectedId`, or none. */
  function Selected(s: State): Option<Fields> {
    match FindIndex(s.notes, s.selectedId)
    case None => None
    case Some(i) => Some(s.notes[i])
  }

  /** The current values of the re-seed effect's dependencies. */
  function CurrentDeps(s: State): Deps {
    match FindIndex(s.notes, s.selectedId)
    case None => Deps(s.selectedId, None)
    case Some(i) => Deps(s.selectedId, Some(Ident(s.generation, i)))
  }

  /** The buffer the re-seed effect installs: `title || ""` and
      `content || ""` of the selected note, or two empty strings. */
  function Seed(sel: Option<Fields>): (Value, Value) {
    match sel
    case None => (Str(""), Str(""))
    case Some(n) => (OrEmpty(Prop(n, "title")), OrEmpty(Prop(n, "content")))
  }

  /** The re-seed effect after a render: it runs, and overwrites the buffer,
      exactly when a dependency differs from the last run. */
  function Settle(s: State): (r: State)
    ensures r.seeded == CurrentDeps(r) == CurrentDeps(s)
    ensures CurrentDeps(s) != s.seeded ==> (r.title, r.content) == Seed(Selected(s))
    ensures CurrentDeps(s) == s.seeded ==> r == s
    ensures r == s.(title := r.title, content := r.content, seeded := r.seeded)
  {
    var d := CurrentDeps(s);
    if d == s.seeded then s
    else
      var (t, c) := Seed(Selected(s));
      s.(title := t, content := c, seeded := d)
  }

  /** An auth-state change.  A different user reruns the `[user]` effect: the
      old subscription is closed; signed out, the list and the selection are
      cleared; signed in, a subscription for the new account is opened whose
      callback captures the current `selectedId`. */
  function OnAuth(s: State, u: Option<User>): (r: State)
    ensures u == s.user ==> r == s
    ensures r.user == u
    ensures u.None? && s.user.Some? ==>
      r.notes == [] && r.selectedId == Null && r.subscription.None? && r.generation == s.generation + 1
    ensures u.Some? && u != s.user ==>
      && r.subscription == Some(Subscription(u.value.uid, s.selectedId))
      && r.notes == s.notes && r.selectedId == s.selectedId
    ensures u.Some? && u != s.user ==>
      && r.generation == s.generation
      && (s.seeded == CurrentDeps(s) ==> r.title == s.title && r.content == s.content)
    ensures u != s.user ==> r.seeded == CurrentDeps(r)
    ensures r == s.(user := r.user, notes := r.notes, generation := r.generation, selectedId := r.selectedId,
                    title := r.title, content := r.content, subscription := r.subscription, seeded := r.seeded)
  {
    if u == s.user then s
    else match u
      case None =>
        Settle(s.(user := None, notes := [], generation := s.generation + 1,
                  selectedId := Null, subscription := None))
      case Some(v) =>
        Settle(s.(user := u, subscription := Some(Subscription(v.uid, s.selectedId))))
  }

  /** A snapshot pushed to the open subscription: the list is replaced by the
      mapped documents and, when the captured (not the current) `selectedId`
      is falsy, the first item's id is selected.  With no subscription open
      nothing listens. */
  function OnSnapshot(s: State, docs: seq<Firestore.Doc>): (r: State)
    ensures s.subscription.None? ==> r == s
    ensures r == s.(notes := r.notes, generation := r.generation, selectedId := r.selectedId,
                    title := r.title, content := r.content, seeded := r.seeded)
    ensures s.subscription.Some? ==>
      && r.notes == Firestore.MapDocs(docs) && r.generation == s.generation + 1
      && r.user == s.user && r.subscription == s.subscription
      && r.seeded == CurrentDeps(r)
  {
    match s.subscription
    case None => s
    case Some(sub) => Settle(Delivered(s, sub, docs))
  }

  /** The state the snapshot callback leaves before the effects run: the new
      list object and the auto-selected id. */
  function Delivered(s: State, sub: Subscription, docs: seq<Firestore.Doc>): State {
    var items := Firestore.MapDocs(docs);
    var sel := if !Truthy(sub.capturedSel) && |items| > 0 then Prop(items[0], "id") else s.selectedId;
    s.(notes := items, generation := s.generation + 1, selectedId := sel)
  }

  /** A click on the list item at `i`: `setSelectedId(n.id)`. */
  function OnSelect(s: State, i: nat): (r: State)
    requires i < |s.notes|
    ensures r.selectedId == Prop(s.notes[i], "id") && r.notes == s.notes
    ensures Selected(r).Some? && Prop(Selected(r).value, "id") == Prop(s.notes[i], "id")
    ensures r.seeded == CurrentDeps(r)
    ensures r == s.(selectedId := r.selectedId, title := r.title, content := r.content, seeded := r.seeded)
  {
    Settle(s.(selectedId := Prop(s.notes[i], "id")))
  }

  /** Typing in the title input, which exists only while a note is selected
      and is disabled while busy. */
  function OnEditTitle(s: State, t: string): (r: State)
    requires Selected(s).Some? && !s.busy
    ensures r.title == Str(t) && r.content == s.content
    ensures Selected(r) == Selected(s) && CurrentDeps(r) == CurrentDeps(s) && r.seeded == s.seeded
    ensures r.(title := s.title) == s
  {
    s.(title := Str(t))
  }

  /** Typing in the content area, under the same conditions as the title. */
  function OnEditContent(s: State, c: string): (r: State)
    requires Selected(s).Some? && !s.busy
    ensures r.content == Str(c) && r.title == s.title
    ensures Selected(r) == Selected(s) && CurrentDeps(r) == CurrentDeps(s) && r.seeded == s.seeded
    ensures r.(content := s.content) == s
  {
    s.(content := Str(c))
  }

  /** The five note commands. */
  datatype Command = Create | Save | Delete | Upload | Summarize

  /** A file chosen in the file input (`e.target.files?.[0]`). */
  datatype FileRef = FileRef(name: string)

  /** A request to a collaborator, with the payload it carries. */
  datatype Call =
    | AddNote(fields: Fields)
    | UpdateNote(noteId: Value, fields: Fields)
    | DeleteNote(noteId: Value)
    | UploadNoteFile(uid: string, noteId: Value, file: FileRef)
    | SummarizeNote(noteId: Value)
    | VerifyToken(token: Value)

  /** What a handler did before its first `await`: the new state and the
      request it sent, if any. */
  datatype Started = Started(next: State, call: Option<Call>)

  /** How the awaited collaborator call ended; a rejection carries the error's
      `message`, if it has one. */
  datatype Outcome = Succeeded | Failed(message: Option<string>)

  const DefaultTitle: string := "Nouvelle note"
  const DefaultContent: string := "Écris ici..."

  /** The early-return guard of each handler. */
  predicate Guard(s: State, cmd: Command, file: Option<FileRef>) {
    match cmd
    case Create => s.user.Some?
    case Save => Selected(s).Some?
    case Delete => Selected(s).Some?
    case Upload => s.user.Some? && Selected(s).Some? && file.Some?
    case Summarize => Selected(s).Some?
  }

  /** The request a handler sends once its guard has passed. */
  function CallFor(s: State, cmd: Command, file: Option<FileRef>): (c: Call)
    requires Guard(s, cmd, file)
    ensures cmd == Create ==> c.AddNote? && c.fields == Firestore.CreateFields(s.user.value.uid, DefaultTitle, DefaultContent)
    ensures cmd == Save ==>
      && c.UpdateNote? && c.noteId == Prop(Selected(s).value, "id")
      && c.fields.Keys == {"title", "content", "updatedAt"}
      && c.fields["title"] == s.title && c.fields["content"] == s.content
      && c.fields["updatedAt"] == ServerTimestamp
    ensures cmd == Delete ==> c == DeleteNote(Prop(Selected(s).value, "id"))
    ensures cmd == Upload ==> c == UploadNoteFile(s.user.value.uid, Prop(Selected(s).value, "id"), file.value)
    ensures cmd == Summarize ==> c == SummarizeNote(Prop(Selected(s).value, "id"))
  {
    var id := if Selected(s).Some? then Prop(Selected(s).value, "id") else Undefined;
    match cmd
    case Create => AddNote(Firestore.CreateFields(s.user.value.uid, DefaultTitle, DefaultContent))
    case Save => UpdateNote(id, Firestore.UpdateFields(map["title" := s.title, "content" := s.content]))
    case Delete => DeleteNote(id)
    case Upload => UploadNoteFile(s.user.value.uid, id, file.value)
    case Summarize => SummarizeNote(id)
  }

  /** The second request of the upload handler, sent once the file is stored:
      the note gets the file's download URL and storage path. */
  function UploadLink(noteId: Value, url: string, path: string): (c: Call)
    ensures c.UpdateNote? && c.noteId == noteId
    ensures c.fields.Keys == {"fileURL", "filePath", "updatedAt"}
    ensures c.fields["fileURL"] == Str(url) && c.fields["filePath"] == Str(path)
    ensures c.fields["updatedAt"] == ServerTimestamp
  {
    UpdateNote(noteId, Firestore.UpdateFields(map["fileURL" := Str(url), "filePath" := Str(path)]))
  }

  /** A command handler up to its `await`.  The button is disabled while busy.
      A failing guard returns at once; otherwise the handler marks the
      session busy, clears the status and sends its request. */
  function Start(s: State, cmd: Command, file: Option<FileRef>): (r: Started)
    requires !s.busy
    ensures r.call.Some? <==> Guard(s, cmd, file)
    ensures r.call.None? ==> r.next == s
    ensures r.call.Some? ==> r.next.busy && r.next.status == ""
    ensures r.call.Some? ==> r.next == s.(busy := true, status := "")
    ensures r.call.Some? ==> r.call == Some(CallFor(s, cmd, file))
  {
    if !Guard(s, cmd, file) then Started(s, None)
    else Started(s.(busy := true, status := ""), Some(CallFor(s, cmd, file)))
  }

  /** The status each command shows on success. */
  function SuccessStatus(cmd: Command): string {
    match cmd
    case Create => "✅ Note créée"
    case Save => "✅ Sauvegardé"
    case Delete => "🗑️ Supprimé"
    case Upload => "📦 Fichier téléversé"
    case Summarize => "🤖 Résumé généré"
  }

  /** The message shown when a rejection has no (truthy) message. */
  function DefaultError(cmd: Command): string {
    match cmd
    case Upload => "Erreur upload"
    case Summarize => "Erreur OpenAI"
    case _ => "Erreur"
  }

  /** `"❌ " + (e?.message || default)`. */
  function ErrorStatus(cmd: Command, message: Option<string>): string {
    "❌ " + (if message.Some? && message.value != "" then message.value else DefaultError(cmd))
  }

  /** A command handler after its `await`: the status reports the outcome,
      a successful delete clears the selection, and `finally` clears busy. */
  function Finish(s: State, cmd: Command, o: Outcome): (r: State)
    ensures !r.busy
    ensures o.Succeeded? ==> r.status == SuccessStatus(cmd)
    ensures o.Failed? ==> r.status == ErrorStatus(cmd, o.message)
    ensures r.selectedId == (if cmd == Delete && o.Succeeded? then Null else s.selectedId)
    ensures r.notes == s.notes && r.user == s.user && r.subscription == s.subscription
    ensures r.generation == s.generation && r.captchaOk == s.captchaOk && r.captchaLoading == s.captchaLoading
    ensures s.seeded == CurrentDeps(s) && !(cmd == Delete && o.Succeeded?) ==>
      r.title == s.title && r.content == s.content
    ensures r == s.(busy := r.busy, status := r.status, selectedId := r.selectedId,
                    title := r.title, content := r.content, seeded := r.seeded)
  {
    match o
    case Succeeded =>
      Settle(s.(busy := false, status := SuccessStatus(cmd),
                selectedId := if cmd == Delete then Null else s.selectedId))
    case Failed(m) =>
      s.(busy := false, status := ErrorStatus(cmd, m))
  }

  /** `handleCaptcha(token)` up to its `await`: the verification is pending
      and the previous result is withdrawn.  Overlapping verifications are
      not modelled. */
  function CaptchaStart(s: State, token: Value): (r: Started)
    requires !s.captchaLoading
    ensures r.next.captchaLoading && !r.next.captchaOk
    ensures r.next.(captchaOk := s.captchaOk, captchaLoading := s.captchaLoading) == s
    ensures r.call == Some(VerifyToken(token))
  {
    Started(s.(captchaLoading := true, captchaOk := false), Some(VerifyToken(token)))
  }

  /** `handleCaptcha` after its `await`: the result is the verification's
      success, and `finally` ends the pending state. */
  function CaptchaFinish(s: State, verified: bool): (r: State)
    ensures r.captchaOk == verified && !r.captchaLoading
    ensures r.(captchaOk := s.captchaOk, captchaLoading := s.captchaLoading) == s
  {
    s.(captchaOk := verified, captchaLoading := false)
  }

  /** The login buttons. */
  predicate LoginEnabled(s: State) {
    s.captchaOk && !s.captchaLoading
  }

  /** The "+ Ajouter" button. */
  predicate CreateEnabled(s: State) {
    s.user.Some? && !s.busy
  }

  /** The save, delete and summarize buttons. */
  predicate NoteActionsEnabled(s: State) {
    Selected(s).Some? && !s.busy
  }

  /** The file input, rendered only inside the editor of a selected note. */
  predicate UploadEnabled(s: State) {
    s.user.Some? && Selected(s).Some? && !s.busy
  }

  /** Every event the controller reacts to. */
  datatype Event =
    | AuthChanged(u: Option<User>)
    | SnapshotDelivered(docs: seq<Firestore.Doc>)
    | ItemClicked(index: nat)
    | TitleEdited(t: string)
    | ContentEdited(c: string)
    | CommandStarted(cmd: Command, file: Option<FileRef>)
    | CommandFinished(cmd: Command, outcome: Outcome)
    | CaptchaStarted(token: Value)
    | CaptchaFinished(verified: bool)

  /** The events the rendered page can produce in state `s`: a click only on
      an item that is listed, typing only into an enabled editor, a command
      only while not busy, and one verification at a time. */
  predicate Admissible(s: State, e: Event) {
    match e
    case ItemClicked(i) => i < |s.notes|
    case TitleEdited(_) => Selected(s).Some? && !s.busy
    case ContentEdited(_) => Selected(s).Some? && !s.busy
    case CommandStarted(_, _) => !s.busy
    case CaptchaStarted(_) => !s.captchaLoading
    case _ => true
  }

  /** The state after event `e`. */
  function Step(s: State, e: Event): State
    requires Admissible(s, e)
  {
    match e
    case AuthChanged(u) => OnAuth(s, u)
    case SnapshotDelivered(docs) => OnSnapshot(s, docs)
    case ItemClicked(i) => OnSelect(s, i)
    case TitleEdited(t) => OnEditTitle(s, t)
    case ContentEdited(c) => OnEditContent(s, c)
    case CommandStarted(cmd, file) => Start(s, cmd, file).next
    case CommandFinished(cmd, o) => Finish(s, cmd, o)
    case CaptchaStarted(token) => CaptchaStart(s, token).next
    case CaptchaFinished(ok) => CaptchaFinish(s, ok)
  }

  /** Every event of `es` is admissible in the state it meets. */
  predicate Admits(s: State, es: seq<Event>)
    decreases |es|
  {
    es == [] || (Admissible(s, es[0]) && Admits(Step(s, es[0]), es[1..]))
  }

  /** The state after the events `es`, in order. */
  function Run(s: State, es: seq<Event>): State
    requires Admits(s, es)
    decreases |es|
  {
    if es == [] then s else Run(Step(s, es[0]), es[1..])
  }
}

=== FILE: session_properties.dfy ===
/** Properties of the session controller: the invariant every reachable state
    keeps, what snapshots and auth changes do to the list, the selection and
    the edit buffer, and how the commands and the captcha check move the
    flags. */
module SessionProperties {
  import opened Wrappers
  import opened JsValues
  import Firestore
  import opened Session

  /** What holds in every state the page can reach.
      - Signed out, the list is empty, nothing is selected and no
        subscription is open; signed in, the open subscription is the
        signed-in account's.
      - The re-seed effect has run for the current dependencies.
      - With no note selected the buffer is empty (the editor that changes it
        is not rendered). */
  ghost predicate Inv(s: State) {
    && (s.user.None? ==> s.notes == [] && s.selectedId == Null && s.subscription.None?)
    && (s.user.Some? ==> s.subscription.Some? && s.subscription.value.uid == s.user.value.uid)
    && s.seeded == CurrentDeps(s)
    && (Selected(s).None? ==> s.title == Str("") && s.content == Str(""))
  }

  lemma InitInv()
    ensures Inv(Init())
  {
  }

  /** A settled state keeps the invariant's last clause. */
  lemma SettleEmptyBuffer(s: State)
    requires s.seeded.selected.None? ==> s.title == Str("") && s.content == Str("")
    ensures var r := Settle(s); Selected(r).None? ==> r.title == Str("") && r.content == Str("")
  {
    if CurrentDeps(s) == s.seeded && Selected(s).None? {
      assert CurrentDeps(s).selected.None?;
    }
  }

  /** An auth change preserves the invariant. */
  lemma AuthPreservesInv(s: State, u: Option<User>)
    requires Inv(s)
    ensures Inv(OnAuth(s, u))
  {
    if u != s.user {
      if u.None? {
        SettleEmptyBuffer(s.(user := None, notes := [], generation := s.generation + 1,
                             selectedId := Null, subscription := None));
      } else {
        SettleEmptyBuffer(s.(user := u, subscription := Some(Subscription(u.value.uid, s.selectedId))));
      }
    }
  }

  /** A snapshot preserves the invariant. */
  lemma SnapshotPreservesInv(s: State, docs: seq<Firestore.Doc>)
    requires Inv(s)
    ensures Inv(OnSnapshot(s, docs))
  {
    if s.subscription.Some? {
      SettleEmptyBuffer(Delivered(s, s.subscription.value, docs));
    }
  }

  /** A finished command preserves the invariant. */
  lemma FinishPreservesInv(s: State, cmd: Command, o: Outcome)
    requires Inv(s)
    ensures Inv(Finish(s, cmd, o))
  {
    if o.Succeeded? {
      SettleEmptyBuffer(s.(busy := false, status := SuccessStatus(cmd),
                           selectedId := if cmd == Delete then Null else s.selectedId));
    }
  }

  /** Every admissible event preserves the invariant. */
  lemma StepPreservesInv(s: State, e: Event)
    requires Inv(s) && Admissible(s, e)
    ensures Inv(Step(s, e))
  {
    match e
    case AuthChanged(u) => AuthPreservesInv(s, u);
    case SnapshotDelivered(docs) => SnapshotPreservesInv(s, docs);
    case ItemClicked(i) => SettleEmptyBuffer(s.(selectedId := Prop(s.notes[i], "id")));
    case TitleEdited(_) =>
    case ContentEdited(_) =>
    case CommandStarted(_, _) =>
    case CommandFinished(cmd, o) => FinishPreservesInv(s, cmd, o);
    case CaptchaStarted(_) =>
    case CaptchaFinished(_) =>
  }

  /** Every admissible run from an invariant state ends in one. */
  lemma {:induction false} RunPreservesInv(s: State, es: seq<Event>)
    requires Inv(s) && Admits(s, es)
    ensures Inv(Run(s, es))
    decreases |es|
  {
    if es != [] {
      StepPreservesInv(s, es[0]);
      RunPreservesInv(Step(s, es[0]), es[1..]);
    }
  }

  /** While subscribed, a snapshot replaces the list wholesale with the mapped
      documents, whatever the list held before; with no subscription open a
      snapshot changes nothing. */
  lemma SnapshotReplacesNotes(s: State, docs: seq<Firestore.Doc>)
    ensures s.subscription.Some? ==> Step(s, SnapshotDelivered(docs)).notes == Firestore.MapDocs(docs)
    ensures s.subscription.None? ==> Step(s, SnapshotDelivered(docs)) == s
  {
  }

  /** Signing out empties the list, clears the selection and the buffer, and
      closes the subscription, from any reachable state. */
  lemma SignOutClears(s: State)
    requires Inv(s)
    ensures var r := Step(s, AuthChanged(None));
      && r.notes == [] && r.selectedId == Null && r.subscription.None?
      && Selected(r).None? && r.title == Str("") && r.content == Str("")
  {
    StepPreservesInv(s, AuthChanged(None));
  }

  /** The auto-select of a snapshot tests the `selectedId` captured when the
      subscription was opened, never the current one: with a falsy captured
      value every non-empty snapshot selects its first item, whatever was
      selected; otherwise the current selection is kept. */
  lemma AutoSelectUsesCapturedValue(s: State, docs: seq<Firestore.Doc>)
    requires s.subscription.Some?
    ensures var r := Step(s, SnapshotDelivered(docs));
      r.selectedId ==
        if !Truthy(s.subscription.value.capturedSel) && docs != []
        then Prop(Firestore.ItemOf(docs[0]), "id")
        else s.selectedId
  {
  }

  /** Signing in from the signed-out state opens a subscription whose
      captured selection is `null`. */
  lemma SignInCapturesNull(s: State, u: User)
    requires Inv(s) && s.user.None?
    ensures Step(s, AuthChanged(Some(u))).subscription == Some(Subscription(u.uid, Null))
  {
  }

  /** Only an auth change touches the subscription. */
  lemma {:induction false} SubscriptionStable(s: State, es: seq<Event>)
    requires Admits(s, es)
    requires forall i :: 0 <= i < |es| ==> !es[i].AuthChanged?
    ensures Run(s, es).subscription == s.subscription
    decreases |es|
  {
    if es != [] {
      assert Step(s, es[0]).subscription == s.subscription by {
        assert !es[0].AuthChanged?;
      }
      SubscriptionStable(Step(s, es[0]), es[1..]);
    }
  }

  /** Only the commands touch `busy` and `status`: a run of auth changes,
      snapshots, clicks, typing and captcha events leaves both as they were,
      so a command stays in flight, and its status stays, while snapshots
      arrive. */
  lemma {:induction false} BusyStable(s: State, es: seq<Event>)
    requires Admits(s, es)
    requires forall i :: 0 <= i < |es| ==> !es[i].CommandStarted? && !es[i].CommandFinished?
    ensures Run(s, es).busy == s.busy && Run(s, es).status == s.status
    decreases |es|
  {
    if es != [] {
      assert Step(s, es[0]).busy == s.busy && Step(s, es[0]).status == s.status by {
        assert !es[0].CommandStarted? && !es[0].CommandFinished?;
      }
      BusyStable(Step(s, es[0]), es[1..]);
    }
  }

  /** After signing in from the signed-out state, for as long as that session
      lasts, every non-empty snapshot moves the selection to its first item,
      whatever the user selected in the meantime. */
  lemma SessionSnapshotsSelectFirst(s: State, u: User, es: seq<Event>, docs: seq<Firestore.Doc>)
    requires Inv(s) && s.user.None?
    requires Admits(Step(s, AuthChanged(Some(u))), es)
    requires forall i :: 0 <= i < |es| ==> !es[i].AuthChanged?
    requires docs != []
    ensures var mid := Run(Step(s, AuthChanged(Some(u))), es);
      Step(mid, SnapshotDelivered(docs)).selectedId == Prop(Firestore.ItemOf(docs[0]), "id")
  {
    var s1 := Step(s, AuthChanged(Some(u)));
    SignInCapturesNull(s, u);
    SubscriptionStable(s1, es);
    AutoSelectUsesCapturedValue(Run(s1, es), docs);
  }

  /** Installing a new list object and settling re-seeds the buffer: a
      selected note of the new list is a new object, so the effect fires; with
      nothing selected the buffer is empty either way. */
  lemma NewListReseeds(s: State, t: State)
    requires Inv(s)
    requires t.generation == s.generation + 1 && t.seeded == s.seeded
    requires t.title == s.title && t.content == s.content
    ensures var r := Settle(t); (r.title, r.content) == Seed(Selected(r))
  {
    var r := Settle(t);
    assert r.notes == t.notes && r.selectedId == t.selectedId;
    assert Selected(r) == Selected(t);
    if CurrentDeps(t) == t.seeded {
      assert CurrentDeps(t).selected == CurrentDeps(s).selected;
      assert Selected(t).None?;
      assert Selected(s).None?;
    }
  }

  /** Every snapshot re-seeds the edit buffer from the selected note, or
      empties it when nothing is selected, discarding unsaved edits: each
      snapshot builds new note objects, so the selected object always changes
      identity. */
  lemma SnapshotReseedsBuffer(s: State, docs: seq<Firestore.Doc>)
    requires Inv(s) && s.subscription.Some?
    ensures var r := Step(s, SnapshotDelivered(docs));
      (r.title, r.content) == Seed(Selected(r))
  {
    NewListReseeds(s, Delivered(s, s.subscription.value, docs));
  }

  /** Whenever an event changes `selectedId` or the selected object, the
      buffer afterwards is the seed of the new selection. */
  lemma SelectionChangeReseeds(s: State, e: Event)
    requires Inv(s) && Admissible(s, e)
    requires CurrentDeps(Step(s, e)) != CurrentDeps(s)
    ensures var r := Step(s, e); (r.title, r.content) == Seed(Selected(r))
  {
    match e
    case AuthChanged(u) =>
    case SnapshotDelivered(docs) =>
    case ItemClicked(i) =>
    case TitleEdited(_) =>
    case ContentEdited(_) =>
    case CommandStarted(_, _) =>
    case CommandFinished(cmd, o) =>
    case CaptchaStarted(_) =>
    case CaptchaFinished(_) =>
  }

  /** Conversely, an event that is not an edit and leaves both the selected id
      and the selected object in place keeps the buffer, unsaved edits
      included. */
  lemma UnchangedSelectionKeepsBuffer(s: State, e: Event)
    requires Inv(s) && Admissible(s, e)
    requires !e.TitleEdited? && !e.ContentEdited?
    requires CurrentDeps(Step(s, e)) == CurrentDeps(s)
    ensures Step(s, e).title == s.title && Step(s, e).content == s.content
  {
    match e
    case AuthChanged(u) =>
    case SnapshotDelivered(docs) =>
    case ItemClicked(i) =>
    case TitleEdited(_) =>
    case ContentEdited(_) =>
    case CommandStarted(_, _) =>
    case CommandFinished(cmd, o) =>
    case CaptchaStarted(_) =>
    case CaptchaFinished(_) =>
  }

  /** Clicking a list item whose id no earlier item shares selects that item.
      The buffer then shows the item's stored title and content (`""` standing
      in for a missing or empty field) when the click changes the selected id,
      or when the buffer held no unsaved edits; clicking the item that is
      already selected keeps unsaved edits. */
  lemma ClickShowsNote(s: State, i: nat)
    requires Inv(s) && i < |s.notes|
    requires forall j :: 0 <= j < i ==> Prop(s.notes[j], "id") != Prop(s.notes[i], "id")
    ensures Selected(Step(s, ItemClicked(i))) == Some(s.notes[i])
    ensures Prop(s.notes[i], "id") != s.selectedId || (s.title, s.content) == Seed(Selected(s)) ==>
      var r := Step(s, ItemClicked(i));
      r.title == OrEmpty(Prop(s.notes[i], "title")) && r.content == OrEmpty(Prop(s.notes[i], "content"))
    ensures Prop(s.notes[i], "id") == s.selectedId ==>
      var r := Step(s, ItemClicked(i));
      r.title == s.title && r.content == s.content
  {
    var t := s.(selectedId := Prop(s.notes[i], "id"));
    assert FindIndex(t.notes, t.selectedId) == Some(i);
  }

  /** Each handler's early-return guard agrees with the `disabled` condition
      of its control: a control is enabled exactly when the session is idle
      and the guard would pass (for the file input, once a file is chosen). */
  lemma EnabledMatchesGuard(s: State, file: Option<FileRef>)
    ensures CreateEnabled(s) <==> !s.busy && Guard(s, Create, file)
    ensures NoteActionsEnabled(s) <==> !s.busy && Guard(s, Save, file)
    ensures NoteActionsEnabled(s) <==> !s.busy && Guard(s, Delete, file)
    ensures NoteActionsEnabled(s) <==> !s.busy && Guard(s, Summarize, file)
    ensures file.Some? ==> (UploadEnabled(s) <==> !s.busy && Guard(s, Upload, file))
  {
  }

  /** Every success status differs from every failure status in its first
      character: failures, and only failures, start with the cross mark, and
      a failure status always carries a message after it. */
  lemma StatusTellsOutcome(cmd: Command, m: Option<string>)
    ensures SuccessStatus(cmd) != [] && SuccessStatus(cmd)[0] != '❌'
    ensures ErrorStatus(cmd, m)[0] == '❌' && |ErrorStatus(cmd, m)| > 2
  {
  }

  /** A started command that finishes, on either path, leaves the session not
      busy, with the list, the account and the captcha flags as they were, and
      a status that tells success (its fixed string) from failure (a string
      starting with the cross mark). */
  lemma CommandRoundTrip(s: State, cmd: Command, file: Option<FileRef>, o: Outcome)
    requires !s.busy && Guard(s, cmd, file)
    ensures var r := Finish(Start(s, cmd, file).next, cmd, o);
      && !r.busy
      && r.notes == s.notes && r.user == s.user
      && r.captchaOk == s.captchaOk && r.captchaLoading == s.captchaLoading
      && (o.Succeeded? ==> r.status == SuccessStatus(cmd) && r.status[0] != '❌')
      && (o.Failed? ==> r.status[0] == '❌' && |r.status| > 2)
  {
    var t := Start(s, cmd, file).next;
    assert t == s.(busy := true, status := "");
    StatusTellsOutcome(cmd, if o.Failed? then o.message else None);
  }

  /** A failure shows the error's message, or the command's default text when
      the error has no message. */
  lemma FailureMessage(s: State, cmd: Command, m: Option<string>)
    ensures var r := Finish(s, cmd, Failed(m));
      && (m.Some? && m.value != "" ==> r.status == "❌ " + m.value)
      && (m.None? || m.value == "" ==> r.status == "❌ " + DefaultError(cmd))
      && (cmd == Create || cmd == Save || cmd == Delete ==> DefaultError(cmd) == "Erreur")
      && (cmd == Upload ==> DefaultError(cmd) == "Erreur upload")
      && (cmd == Summarize ==> DefaultError(cmd) == "Erreur OpenAI")
  {
  }

  /** A successful delete clears the selection; a failed one keeps it, and
      with it the selected note and the buffer. */
  lemma DeleteClearsOnlyOnSuccess(s: State, m: Option<string>)
    requires Inv(s)
    ensures Finish(s, Delete, Succeeded).selectedId == Null
    ensures var r := Finish(s, Delete, Failed(m));
      r.selectedId == s.selectedId && Selected(r) == Selected(s)
      && r.title == s.title && r.content == s.content
  {
  }

  /** Summarizing never changes the list, the selection or the buffer, on
      either path: the summary reaches the page only through a later
      snapshot. */
  lemma SummarizeLeavesNotes(s: State, o: Outcome)
    requires Inv(s) && !s.busy
    ensures var r := Finish(Start(s, Summarize, None).next, Summarize, o);
      && r.notes == s.notes && r.generation == s.generation && r.selectedId == s.selectedId
      && r.title == s.title && r.content == s.content
  {
    var t := Start(s, Summarize, None).next;
    assert CurrentDeps(t) == t.seeded;
  }

  /** Starting a verification disables login; only a successful verification
      enables it, and a failed one leaves it disabled. */
  lemma CaptchaGatesLogin(s: State, token: Value, verified: bool)
    requires !s.captchaLoading
    ensures !LoginEnabled(CaptchaStart(s, token).next)
    ensures LoginEnabled(CaptchaFinish(CaptchaStart(s, token).next, verified)) <==> verified
  {
  }

  /** `captchaOk` turns true only through a successful verification: every
      other event leaves it false when it was false. */
  lemma CaptchaOkOnlyBySuccess(s: State, e: Event)
    requires Admissible(s, e)
    requires e != CaptchaFinished(true)
    ensures Step(s, e).captchaOk ==> s.captchaOk
  {
    match e
    case AuthChanged(u) =>
    case SnapshotDelivered(docs) =>
    case ItemClicked(i) =>
    case TitleEdited(_) =>
    case ContentEdited(_) =>
    case CommandStarted(_, _) =>
    case CommandFinished(cmd, o) =>
    case CaptchaStarted(_) =>
    case CaptchaFinished(_) =>
  }

  /** While subscribed, a snapshot that satisfies the subscription's query
      leaves only the signed-in account's notes in the list, and when it
      auto-selects it selects the most recently updated note. */
  lemma SnapshotOwnedAndRecent(s: State, docs: seq<Firestore.Doc>)
    requires Inv(s) && s.user.Some?
    requires Firestore.MatchesQuery(docs, s.user.value.uid)
    ensures var r := Step(s, SnapshotDelivered(docs));
      forall i :: 0 <= i < |r.notes| ==> Prop(r.notes[i], "uid") == Str(s.user.value.uid)
    ensures var r := Step(s, SnapshotDelivered(docs));
      r.selectedId != s.selectedId ==>
        && Selected(r) == Some(r.notes[0])
        && forall j :: 0 <= j < |docs| ==> Firestore.UpdatedAt(docs[j]) <= Firestore.UpdatedAt(docs[0])
  {
    var r := Step(s, SnapshotDelivered(docs));
    forall i | 0 <= i < |r.notes| ensures Prop(r.notes[i], "uid") == Str(s.user.value.uid) {
      assert r.notes[i] == Firestore.ItemOf(docs[i]);
    }
    if r.selectedId != s.selectedId {
      assert FindIndex(r.notes, r.selectedId) == Some(0);
    }
  }
}

=== FILE: wrappers.dfy ===
/** The optional-value datatype shared by every module of the model. */
module Wrappers {

  /** A value that may be absent: JavaScript's `null`/`undefined` at the
      places where the program only ever tests for presence. */
  datatype Option<+T> = None | Some(value: T)
}
